=== FILE: README.md ===
# Telegram dating bot: conversation and matching engine

This project is a Dafny model of the conversation engine of a Telegram
matchmaking bot. It has two parts:

- **The 2025 bot** (`telegram_bot_2025.py`). Registration asks for gender,
  age, hobby, location, photo and description, in that order. The
  description step commits one `users` row. After that comes a main menu, a
  swipe loop and profile editing. The swipe loop offers profiles the user has
  not swiped yet, records each like or dislike in `swipes`, and announces a
  match to both users when a like is reciprocated.
- **The earlier draft** (`bot.py`). It is a separate, simpler conversation
  with different rules.

Each handler is a pure function. It takes the store (the two tables as maps,
or as a sequence for the draft), the user's session (state, plus `user_data`
as a record of optional fields) and one event. It returns the next session,
the next store and the messages sent, as abstract effects.

Modules:

- `wrappers.dfy` (`Wrappers`): Option and Result.
- `text.dfy` (`Text`): Python's `int(text)`, restricted to an optional sign
  followed by ASCII digits. Also `str.split` with a one-character separator,
  and the decimal rendering of an `int` in an f-string.
- `tables.dfy` (`Tables`): the `users` table, keyed by `user_id`, and the
  `swipes` table, keyed by `(swiper_id, swiped_id)`. An INSERT on an existing
  key is refused. An UPDATE with no matching row changes nothing.
- `candidates.dfy` (`Candidates`): the set of profiles eligible for
  `find_match`, and the random pick. `ORDER BY RANDOM() LIMIT 1` is modelled
  by a `roll`, the number the database draws. The candidate is the
  (roll mod n)-th smallest eligible id, and a lemma shows that every eligible
  id is chosen by some roll.
- `engine.dfy` (`Engine`): the 2025 handlers and `Step`, which routes an
  event to the handler the current state accepts it with.
- `engine_props.dfy` (`EngineProps`): properties that span handlers or
  sequences of events, stated over `Run`, which feeds one user's events to
  `Step` one at a time.
- `draft_bot.dfy` (`DraftBot`): the `bot.py` handlers and their own `Step`.

How routing works in `Step`:

- An event the current state has no filter for is ignored.
- A handler that raises leaves the conversation in its current state.
- `/start` is handled only when no conversation is active. The framework's
  default is that entry points are not re-entered.
- `/cancel` is handled only while a conversation is active.
- A MATCHING callback goes to the corrected `Engine.MatchChoice`, not to
  `Engine.MatchChoiceAsWritten` (see Findings). Every property stated about
  `Step` therefore describes the corrected swipe loop.
- The 2025 source reuses the DESCRIPTION and HOBBY states for both
  registering and editing. The session's `editing` flag records which of the
  two conversations the state belongs to. `edit_profile_choice` sets it and
  `start` clears it.

## Model

| member | source | states |
|---|---|---|
| Text.ParseInt | telegram_bot_2025.py:142 | `int(text)` succeeds exactly on an optional `+` or `-` followed by at least one digit; the value is the digits' decimal value, negated after `-` |
| Text.ParseShowInt | telegram_bot_2025.py:142 | parsing the decimal rendering of any integer gives that integer back, so `int()` reads back every id and age the bot renders |
| Text.ShowNat | telegram_bot_2025.py:312-313 | the rendering of an id in a button token is a non-empty digit string, one digit long exactly for values below ten |
| Text.Split | telegram_bot_2025.py:342 | `str.split("_")` gives at least one piece, no piece contains `_`, and joining the pieces with `_` gives back the token |
| Text.SplitJoin | telegram_bot_2025.py:397 | splitting a `_`-joined list of `_`-free pieces recovers exactly those pieces |
| Tables.InsertUser | telegram_bot_2025.py:63-77 | inserting a profile fails exactly when the `user_id` already has a row; on success the new row is added and every other row is unchanged |
| Tables.InsertSwipe | telegram_bot_2025.py:80-90 | inserting a swipe fails exactly when the ordered pair already has a row; on success it adds exactly that pair with its action and never overwrites an existing row |
| Tables.SetDescription | telegram_bot_2025.py:417 | the UPDATE changes only the description of the user's row, does nothing without a row, and never adds or removes rows |
| Tables.SetHobby | telegram_bot_2025.py:429 | the UPDATE changes only the hobby of the user's row, does nothing without a row, and never adds or removes rows |
| Tables.SwipedBy | telegram_bot_2025.py:289-291 | the subquery's ids are exactly the users the swiper has a swipe row for |
| Candidates.Eligible | telegram_bot_2025.py:286-294 | a profile is eligible exactly when it exists, is not the user's own, and the user has not swiped it |
| Candidates.Nth | telegram_bot_2025.py:292-293 | the k-th smallest element of the eligible set is a member of that set |
| Candidates.Pick | telegram_bot_2025.py:292-293 | whatever the random draw is, the chosen row is a member of the eligible set |
| Candidates.PickReachesEvery | telegram_bot_2025.py:292-293 | every member of the eligible set is chosen by some random draw, so the model promises only "some eligible profile" |
| Engine.Start | telegram_bot_2025.py:111-129 | `start` leads to MENU exactly when the user has a row, otherwise to GENDER; it never changes the store or the draft |
| Engine.GenderStep | telegram_bot_2025.py:132-136 | with the filter of line 521, GENDER advances to AGE exactly on "Pria" or "Wanita", and then records it; any other text changes nothing |
| Engine.AgeStep | telegram_bot_2025.py:139-150 | AGE advances to HOBBY exactly when the text parses as an integer in [18, 99], and then records it; otherwise the draft is untouched and the state is AGE |
| Engine.HobbyStep | telegram_bot_2025.py:153-161 | the text becomes the hobby and the state becomes LOCATION |
| Engine.LocationStep | telegram_bot_2025.py:164-173 | both coordinates are recorded and the state becomes PHOTO |
| Engine.PhotoStep | telegram_bot_2025.py:176-181 | the file id of the last (largest) photo size is recorded and the state becomes DESCRIPTION |
| Engine.DescriptionStep | telegram_bot_2025.py:184-228 | for a new user, inserts exactly one row holding the draft's fields and the description, leaves other rows and the swipes alone, clears the draft and goes to MENU; for a user who already has a row, nothing is stored, the draft keeps the description, and the state becomes END |
| Engine.MyProfile | telegram_bot_2025.py:254-275 | when the user has a row, the one message shown is exactly that row; otherwise the one message is a not-found notice; always returns to MENU with the store unchanged |
| Engine.NextCandidate | telegram_bot_2025.py:286-296 | the query returns no row exactly when the eligible set is empty; a returned row is another user's existing profile that the user has not swiped |
| Engine.FindMatch | telegram_bot_2025.py:279-330 | ends in MENU exactly when no profile is eligible, otherwise in MATCHING with `potential_match_id` set to an eligible candidate and only that draft field changed; never changes the store |
| Engine.MainMenu | telegram_bot_2025.py:239-251 | the search button runs `find_match`, the profile button runs `my_profile`, the edit button goes to EDIT_PROFILE, and anything else stays in MENU; the store never changes |
| Engine.ParseSwipeToken | telegram_bot_2025.py:341-343 | a token is accepted exactly when it splits on `_` into three pieces whose third is an integer; the action is then the second piece and the target that integer |
| Engine.MatchChoice | telegram_bot_2025.py:333-379 | a malformed token changes nothing. Otherwise: the (swiper, swiped) row is added with its action, or a repeated pair is refused with the table unchanged; the reply ends as `find_match` leaves it, with `editing` and every draft field but the remembered candidate untouched, that candidate eligible and the one shown by the last message (or, with none left, MENU and the exhaustion message); a refused repeat sends exactly one notice before it, a reciprocated like exactly one notice to the swiper then one to the swiped user, anything else nothing. This is the corrected handler (see Findings); `Step` routes MATCHING callbacks to it |
| Engine.SwipeRefused | telegram_bot_2025.py:352-356 | a repeated pair leaves the store as it is, reports the repeat and then ends as `find_match` does |
| Engine.SwipeStored | telegram_bot_2025.py:345-379 | a new pair is stored with its action; the match is announced, to the swiper and then to the swiped user, exactly when the action is "like" and the other user already likes the swiper; then it ends as `find_match` does |
| Engine.MatchChoiceAsWritten | telegram_bot_2025.py:333-379 | the code as written stores the same swipes as the intended handler, but its conversation state never changes and it never shows a candidate or the exhaustion message |
| Engine.EditProfileChoice | telegram_bot_2025.py:392-409 | the second `_`-piece of the token maps "description" to DESCRIPTION, "hobby" to HOBBY (both in edit mode), "cancel" to MENU, and anything else to EDIT_PROFILE; a token without `_` changes nothing |
| Engine.SaveNewDescription | telegram_bot_2025.py:411-421 | overwrites only the user's description, leaves every other row, column and swipe alone, does nothing without a row, and returns to MENU |
| Engine.SaveNewHobby | telegram_bot_2025.py:423-433 | overwrites only the user's hobby, leaves every other row, column and swipe alone, does nothing without a row, and returns to MENU |
| Engine.Cancel | telegram_bot_2025.py:438-445 | discards the draft and ends the conversation; no stored row is rolled back |
| EngineProps.InitialCollected | telegram_bot_2025.py:111-129 | a fresh session satisfies the collected-fields invariant |
| EngineProps.RunKeepsCollected | telegram_bot_2025.py:132-181 | any sequence of events keeps this invariant: on reaching each registration state, the draft holds every field asked for before it |
| EngineProps.RunCommitsCompleteRows | telegram_bot_2025.py:184-210 | from a session keeping the invariant, if all rows are complete before a sequence of events they are all complete after it: registration commits rows with no null column |
| Engine.Step | telegram_bot_2025.py:519-534 | one event of user `me` never deletes a row or alters another user's row; a row for `me` appears only when a registration DESCRIPTION text moves to MENU, built from the draft; swipes are never deleted or overwritten, and new ones have `me` as swiper and happen only in MATCHING; `/start` during an active conversation changes nothing; the collected-fields invariant is kept, and only complete rows are committed; every candidate shown is another user's profile not yet swiped, judged after the event; the remembered candidate never becomes `me` |
| Engine.OnText | telegram_bot_2025.py:521-529 | a text message, routed by state, gives every guarantee of `Step` |
| Engine.OnCallback | telegram_bot_2025.py:530-532 | a button press, routed by state and prefix, gives every guarantee of `Step` |
| EngineProps.RunTouchesOnlyOwnData | telegram_bot_2025.py:345-351 | any sequence of one user's events never deletes or alters another user's row, never deletes or overwrites a swipe, and adds swipes only with that user as swiper |
| EngineProps.RunNeverRemembersSelf | telegram_bot_2025.py:298-300 | no sequence of events makes `potential_match_id` the user's own id |
| EngineProps.WrongPayloadIgnored | telegram_bot_2025.py:521-526 | during registration, an event of the wrong kind changes neither session nor store |
| EngineProps.AgeAcceptsExactlyTheRange | telegram_bot_2025.py:141-150 | the rendering of an integer n is accepted as an age exactly when 18 <= n <= 99, and it is stored as n |
| EngineProps.NonNumericAgeRejected | telegram_bot_2025.py:141-150 | "abc" and the empty text leave the session at AGE, unchanged |
| EngineProps.FindMatchCanOfferAny | telegram_bot_2025.py:292-300 | each eligible profile is the remembered candidate for some random draw |
| EngineProps.FindMatchExhausted | telegram_bot_2025.py:325-330 | once the user has swiped every other profile, the search returns to MENU with the exhaustion message |
| EngineProps.SwipeTokenRoundTrip | telegram_bot_2025.py:312-313 | the swipe button token of any `_`-free action and any candidate id decodes to that action and id |
| EngineProps.MutualLikeAnnouncedOnce | telegram_bot_2025.py:360-374 | when two users like each other, the second like announces the match to both and the first announces nothing |
| EngineProps.MatchNoticeOnce | telegram_bot_2025.py:366-374 | a swipe notifies the swiper at most once and the swiped user at most once, when they are different users |
| EngineProps.DislikeNeverAnnounced | telegram_bot_2025.py:375-376 | a dislike never announces a match |
| EngineProps.SecondSwipeRefused | telegram_bot_2025.py:345-356 | a second swipe on the same profile leaves the swipes as the first swipe left them, reports the repeat, and announces nothing |
| EngineProps.MatchChoiceAsWrittenStrands | telegram_bot_2025.py:356 | a concrete input (users 1 and 2, user 1 likes 2) where the code as written stays in MATCHING and the intended handler returns to MENU |
| EngineProps.EditTokenRoutes | telegram_bot_2025.py:384-409 | `edit_<x>` is routed on x alone, for every `_`-free x |
| EngineProps.SaveNewDescriptionIdempotent | telegram_bot_2025.py:411-421 | saving the same description twice has the same effect as saving it once |
| EngineProps.SaveNewHobbyIdempotent | telegram_bot_2025.py:423-433 | saving the same hobby twice has the same effect as saving it once |
| EngineProps.ScenarioStep | telegram_bot_2025.py:132-181 | each registration answer of the scenario moves to the next state and records exactly that answer |
| EngineProps.ScenarioCollectsAnswers | telegram_bot_2025.py:132-181 | after the first k events of the scenario, the session holds exactly the first answers and the store is untouched |
| EngineProps.RegistrationScenario | telegram_bot_2025.py:184-221 | user 42 answering Wanita, 29, Baca, (1.0, 2.0), p1 and hai ends in MENU with one new row holding exactly those answers and nothing else changed |
| DraftBot.Start | bot.py:35-45 | a registered user gets exactly the welcome and no next state; anyone else is asked for a gender and goes to GENDER; nothing is stored |
| DraftBot.GenderStep | bot.py:47-50 | any text is recorded as the gender and the state becomes AGE |
| DraftBot.AgeStep | bot.py:52-62 | AGE advances to HOBBY exactly when the text parses as an integer greater than 0, with no upper bound; otherwise the draft is untouched and the state is AGE |
| DraftBot.AgeAcceptsPositive | bot.py:52-62 | the rendering of an integer n is accepted exactly when n > 0, and it is stored as n |
| DraftBot.HobbyStep | bot.py:64-67 | the text becomes the hobby and the state becomes LOCATION |
| DraftBot.LocationStep | bot.py:69-76 | a missing location keeps the state at LOCATION with the draft untouched; a present one is stored as a pair and the state becomes PHOTO |
| DraftBot.PhotoStep | bot.py:78-85 | the draft records `profile_photos/{user_id}.jpg` and the state becomes DESCRIPTION |
| DraftBot.PhotoPathInjective | bot.py:81 | different users never get the same photo path |
| DraftBot.DescriptionStep | bot.py:87-115 | records the description; if any of the six draft fields is missing, nothing is stored and the state stays; otherwise it appends exactly one row built from the draft and goes to MATCHING |
| DraftBot.RowCountAppend | bot.py:111-114 | appending a row raises the user's row count by one exactly when the row carries that user's id |
| DraftBot.RegisteringAgainAddsRow | bot.py:186-197 | `user_id` is not a key, so every registration adds one more row for the user |
| DraftBot.ChooseMatching | bot.py:125-137 | only "Suka" and "Tidak Suka" are answers, and everything else re-prompts; the state is MATCHING in every case and nothing is stored |
| DraftBot.Restricted | bot.py:26-33 | the wrapped handler runs, and its result is returned, exactly when the user is registered; otherwise the handler does not run and the user gets the not-registered message |
| DraftBot.EditProfile | bot.py:157-160 | an unregistered user gets the not-registered message; a registered one gets exactly the description prompt, keeps the draft and the table, and moves to EDIT_PROFILE_DESCRIPTION |
| DraftBot.WithDescription | bot.py:171 | the UPDATE rewrites the description of every row with that `user_id` and leaves other rows as they are |
| DraftBot.SaveProfileDescription | bot.py:162-174 | sets the draft's description and the description of every row of the user; other columns and rows are unchanged, and the state stays |
| DraftBot.Cancel | bot.py:176-178 | ends the conversation and keeps the draft |
| DraftBot.Handle | bot.py:206-219 | the handler run for an event keeps every stored row in place, another user's exactly and the user's own but for its description; outside EDIT_PROFILE_DESCRIPTION the stored rows are untouched, and there the row count stays; a row is added only by a DESCRIPTION text, exactly one, with MATCHING next; states other than DESCRIPTION and EDIT_PROFILE_DESCRIPTION leave `users` as it is; `/start` during a conversation changes neither state nor draft |
| DraftBot.Step | bot.py:206-219 | one event keeps every stored row in place, another user's exactly and the user's own but for its description, and leaves them untouched outside EDIT_PROFILE_DESCRIPTION; it adds at most one row, only when leaving DESCRIPTION for MATCHING; in MATCHING the rows stay and every event except `/cancel` keeps MATCHING; `/start` during a conversation changes nothing |
| DraftBot.RunKeepsRows | bot.py:162-174 | any sequence of events keeps every stored row in place: another user's row exactly, the user's own rows except their description |
| DraftBot.RunStaysMatching | bot.py:125-137 | once in MATCHING, any sequence of events without `/cancel` stays in MATCHING and stores nothing |

## Left out

- Telegram transport: sending and editing messages, keyboards, captions and
  `query.answer`. Outbound messages appear only as effect tags. The mutual-match
  notices are `MatchNotice(user)`.
- aiosqlite plumbing: connecting, committing and closing, and `bot.py`'s
  silent skip when no connection is available. The tables are in-memory maps
  (a sequence for the draft's `users`). Database errors other than the
  primary-key refusal are not modelled. One of them is the `OverflowError`
  Python's sqlite3 raises when a bound integer does not fit SQLite's signed
  64-bit INTEGER.
- Engine.MatchChoice: stores a swipe for any parsed id. In the source, an id
  outside the signed 64-bit range makes the INSERT at
  `telegram_bot_2025.py:347-350` raise `OverflowError`. The `except` at :352
  catches only `IntegrityError`, so the handler raises, nothing is stored and
  the conversation stays in MATCHING. Telegram ids fit that range, so only a
  crafted token reaches this case.
- `registration_date` and `swipe_date`, which come from the clock.
- The `main()` wiring of both files. `Step` takes its transitions from the
  handlers, and its event filters from lines 521-532 and 505. The wiring
  itself is not modelled: the unused `conv_handler`, the missing registration
  of `main_menu`, the nested edit conversation that shares state ids, and the
  standalone `start` handler at `bot.py:205`. That handler shadows the draft
  conversation's entry point.
- Menu label bytes. Menu buttons are the `MenuChoice` enum. The label
  compared inside `main_menu` at `telegram_bot_2025.py:244` differs from the
  keyboard's label at line 236, so that one comparison never matches. The
  MENU handler registered at line 529 does match the keyboard's label, and
  the model routes the enum choice to `my_profile` as that handler does.
  Because a button press is its own `MenuPick` event, it is heard only in
  MENU. In the source a press is an ordinary text message, so a menu label
  pressed while editing (HOBBY or DESCRIPTION with `editing` set) is saved
  as the new hobby or description; the model ignores it there.
- `ORDER BY RANDOM()` beyond "some eligible profile". The draw is the `roll`
  parameter, and no distribution is modelled.
- Latitude and longitude are opaque reals. Nothing computes on them.
- The photo download of `bot.py:80-82`. Only the derived path is modelled.
- `bot.py`'s `view_profile`, `get_user_profile` and `start_matching`. None of
  them is registered with the conversation, so none is reachable from it
  (`start_matching`, at `bot.py:117-123`, would return MATCHING).
  `edit_profile` is not registered either (`bot.py:203-219` registers only
  `start` and the conversation), so EDIT_PROFILE_DESCRIPTION cannot be
  reached in `bot.py`. `DraftBot.EditProfile` and the EDIT_PROFILE_DESCRIPTION
  branch of `DraftBot.Handle` are modelled from the handlers alone.
- `unknown_command`: it only sends a reply, so the model ignores events with
  no handler.
- Logging, the token and the environment. Async execution and concurrency:
  the model handles one event at a time.
- Text.ParseInt: accepts only an optional sign followed by ASCII digits.
  Python's `int()` also accepts surrounding whitespace, underscores between
  digits and non-ASCII decimal digits.
- Engine.GenderStep: treats the filter `^(Pria|Wanita)$` as exact equality.
  Python's `$` also matches just before a final newline, which the keyboard
  buttons never send.
- `bot.py`'s `location` column holds `str((lat, lon))`. The model stores the
  pair itself.

Behaviour of the code the model keeps as written:

- `/start` does not reset an active conversation.
- Any action string from a token is stored as given, not only like and
  dislike.
- The swiped id comes from the token and is not checked against
  `potential_match_id`, so a crafted token can swipe any id within SQLite's
  signed 64-bit INTEGER range, including the user's own. A like of one's own id is announced twice, both times to
  that user.
- Registration can insert null columns if the draft is incomplete.
  `EngineProps.RunCommitsCompleteRows` shows that this cannot happen
  through `Step`.

## Findings

| source | as written | input that shows it | evidently intended | confidence | as-written member | corrected member |
|---|---|---|---|---|---|---|
| telegram_bot_2025.py:356 | `match_choice` calls `find_match(update, context)` with the callback-query update. Its `update.message` is `None`, so `reply_photo` / `reply_text` raise. The conversation stays in MATCHING, and the next candidate is remembered but never shown. The same happens after a recorded swipe at line 379. | users 1 and 2 registered, no swipes; user 1 presses the button `match_like_2` | show the next candidate in MATCHING, or report exhaustion and return to MENU | high (not executed; follows from `Update.message` being unset for callback queries) | Engine.MatchChoiceAsWritten, EngineProps.MatchChoiceAsWrittenStrands | Engine.MatchChoice |

=== FILE: candidates.dfy ===
/**
 * Candidate selection: the profiles other than the user's own that the user
 * has not swiped yet, and one of them chosen at random.
 *
 * `ORDER BY RANDOM() LIMIT 1` is modelled by a `roll`, the random number the
 * database draws: the candidate is the `(roll mod n)`-th smallest of the `n`
 * eligible ids. Every eligible id is the outcome of some roll
 * (`PickReachesEvery`), so the model promises no more than "some member of
 * the eligible set".
 */
module Candidates {
  import opened Tables

  /** The rows the `find_match` query can return for `me`. */
  function Eligible(store: Store, me: UserId): (r: set<UserId>)
    ensures forall v :: v in r <==> v in store.users && v != me && (me, v) !in store.swipes
  {
    set v | v in store.users && v != me && v !in SwipedBy(store.swipes, me)
  }

  /** A non-empty set has a member. */
  lemma HasMember(s: set<int>)
    requires s != {}
    ensures exists m :: m in s
  {
    if forall m :: m !in s {
      assert false;
    }
  }

  lemma {:induction false} HasLeast(s: set<int>)
    requires s != {}
    ensures exists m :: m in s && forall x | x in s :: m <= x
    decreases |s|
  {
    HasMember(s);
    var y :| y in s;
    if s != {y} {
      var rest := s - {y};
      HasLeast(rest);
      var m :| m in rest && forall x | x in rest :: m <= x;
      assert forall x | x in s :: x == y || x in rest;
    } else {
      assert forall x | x in s :: x == y;
    }
  }

  function Least(s: set<int>): (m: int)
    requires s != {}
    ensures m in s && forall x | x in s :: m <= x
  {
    HasLeast(s);
    var m :| m in s && forall x | x in s :: m <= x;
    m
  }

  /** The `k`-th smallest element of `s`, counting from zero. */
  function Nth(s: set<int>, k: nat): (r: int)
    requires k < |s|
    ensures r in s
    decreases k
  {
    if k == 0 then Least(s) else Nth(s - {Least(s)}, k - 1)
  }

  /** The candidate a given roll of the random source selects. */
  function Pick(s: set<int>, roll: nat): (r: int)
    requires s != {}
    ensures r in s
  {
    Nth(s, roll % |s|)
  }

  lemma {:induction false} NthReachesEvery(s: set<int>, c: int)
    requires c in s
    ensures exists k: nat :: k < |s| && Nth(s, k) == c
    decreases |s|
  {
    if c != Least(s) {
      var rest := s - {Least(s)};
      NthReachesEvery(rest, c);
      var k: nat :| k < |rest| && Nth(rest, k) == c;
      assert Nth(s, k + 1) == c;
    } else {
      assert Nth(s, 0) == c;
    }
  }

  /** Random selection can produce every member of the set, and only those. */
  lemma PickReachesEvery(s: set<int>, c: int)
    requires c in s
    ensures exists roll: nat :: Pick(s, roll) == c
  {
    NthReachesEvery(s, c);
    var k: nat :| k < |s| && Nth(s, k) == c;
    assert Pick(s, k) == c;
  }
}

=== FILE: draft_bot.dfy ===
/**
 * The earlier draft of the bot, a separate and simpler conversation: no
 * upper age bound, an explicit check for a missing location, a photo kept
 * as a derived file path, swipes answered in text and never stored, and a
 * `users` table whose `user_id` column is not a key, so registering twice
 * stores two rows.
 */
module DraftBot {
  import opened Wrappers
  import opened Text
  import opened Tables

  datatype State = Gender | Age | Hobby | Location | Photo | Description | Matching | EditProfileDescription | End

  datatype Point = Point(latitude: real, longitude: real)

  datatype Event =
    | Command(name: string)
    | TextMessage(text: string)
    | SharedLocation(point: Point)
    | SharedPhoto

  /** `user_data`: the registration fields collected so far. */
  datatype Draft = Draft(
    gender: Option<string>,
    age: Option<int>,
    hobby: Option<string>,
    location: Option<Point>,
    photoPath: Option<string>,
    description: Option<string>)

  const EmptyDraft := Draft(None, None, None, None, None, None)

  /** One row of `users`; its autoincrement `id` is its position in the table. */
  datatype UserRow = UserRow(
    userId: UserId,
    gender: string,
    age: int,
    hobby: string,
    location: Point,
    photoPath: string,
    description: string)

  /** The `users` table in insertion order. */
  type Users = seq<UserRow>

  /** `user_already_registered`: some row carries the user's id. */
  predicate Registered(users: Users, id: UserId) {
    exists i | 0 <= i < |users| :: users[i].userId == id
  }

  /**
   * `after` keeps every row of `users` in place: another user's row exactly,
   * the user's own rows except possibly their description; rows may follow.
   */
  predicate KeepsRows(users: Users, id: UserId, after: Users) {
    && |after| >= |users|
    && (forall i | 0 <= i < |users| :: after[i] == users[i].(description := after[i].description))
    && (forall i | 0 <= i < |users| && users[i].userId != id :: after[i] == users[i])
  }

  /** The number of rows that carry the user's id. */
  function RowCount(users: Users, id: UserId): nat
    decreases |users|
  {
    if |users| == 0 then 0
    else RowCount(users[..|users| - 1], id) + (if users[|users| - 1].userId == id then 1 else 0)
  }

  datatype Effect =
    | Welcome | AskGender | AskAge | InvalidAge | AskHobby | AskLocation | InvalidLocation
    | AskPhoto | AskDescription | ProfileSaved | AskStartMatching
    | InvalidChoice | Liked | Passed | AskAgain
    | NotRegistered | AskNewDescription | DescriptionUpdated | Cancelled

  /** What a handler hands back; `next == None` keeps the conversation where it is. */
  datatype Reply = Reply(next: Option<State>, draft: Draft, users: Users, effects: seq<Effect>)

  /** `start`: a registered user is only welcomed; anyone else is asked for a gender. */
  function Start(users: Users, d: Draft, id: UserId): (r: Reply)
    ensures r.users == users && r.draft == d
    ensures r.next.None? <==> Registered(users, id)
    ensures r.next.Some? ==> r.next.value == Gender
    ensures Registered(users, id) ==> r.effects == [Welcome]
    ensures !Registered(users, id) ==> r.effects == [AskGender]
  {
    if Registered(users, id) then Reply(None, d, users, [Welcome])
    else Reply(Some(Gender), d, users, [AskGender])
  }

  /** `gender`: any text is accepted as the gender. */
  function GenderStep(users: Users, d: Draft, t: string): (r: Reply)
    ensures r.users == users && r.next == Some(Age) && r.draft == d.(gender := Some(t))
  {
    Reply(Some(Age), d.(gender := Some(t)), users, [AskAge])
  }

  /** `age`: any integer above zero, with no upper bound; otherwise the question repeats. */
  function AgeStep(users: Users, d: Draft, t: string): (r: Reply)
    ensures r.users == users
    ensures r.next == Some(Hobby) <==> ParseInt(t).Some? && ParseInt(t).value > 0
    ensures r.next == Some(Hobby) ==> r.draft == d.(age := ParseInt(t))
    ensures r.next != Some(Hobby) ==> r.next == Some(Age) && r.draft == d
  {
    match ParseInt(t)
    case Some(n) =>
      if n <= 0 then Reply(Some(Age), d, users, [InvalidAge])
      else Reply(Some(Hobby), d.(age := Some(n)), users, [AskHobby])
    case None => Reply(Some(Age), d, users, [InvalidAge])
  }

  /** `hobby`: any text is the hobby. */
  function HobbyStep(users: Users, d: Draft, t: string): (r: Reply)
    ensures r.users == users && r.next == Some(Location) && r.draft == d.(hobby := Some(t))
  {
    Reply(Some(Location), d.(hobby := Some(t)), users, [AskLocation])
  }

  /** `location`: a message without a location repeats the question. */
  function LocationStep(users: Users, d: Draft, location: Option<Point>): (r: Reply)
    ensures r.users == users
    ensures location.None? ==> r.next == Some(Location) && r.draft == d
    ensures location.Some? ==> r.next == Some(Photo) && r.draft == d.(location := location)
  {
    match location
    case None => Reply(Some(Location), d, users, [InvalidLocation])
    case Some(p) => Reply(Some(Photo), d.(location := Some(p)), users, [AskPhoto])
  }

  /** Where `photo` stores a user's picture: `profile_photos/{user_id}.jpg`. */
  function PhotoPath(id: UserId): string {
    "profile_photos/" + ShowInt(id) + ".jpg"
  }

  /** Distinct users never share a photo file. */
  lemma PhotoPathInjective(a: UserId, b: UserId)
    requires PhotoPath(a) == PhotoPath(b)
    ensures a == b
  {
    var pa, pb := PhotoPath(a), PhotoPath(b);
    assert pa[15..|pa| - 4] == ShowInt(a);
    assert pb[15..|pb| - 4] == ShowInt(b);
    ParseShowInt(a);
    ParseShowInt(b);
  }

  /** `photo`: records the path derived from the user's id (the download is not modelled). */
  function PhotoStep(users: Users, d: Draft, id: UserId): (r: Reply)
    ensures r.users == users && r.next == Some(Description)
    ensures r.draft == d.(photoPath := Some(PhotoPath(id)))
  {
    Reply(Some(Description), d.(photoPath := Some(PhotoPath(id))), users, [AskDescription])
  }

  /** Whether the draft holds the six fields `description` reads. */
  predicate Ready(d: Draft) {
    d.gender.Some? && d.age.Some? && d.hobby.Some? && d.location.Some? && d.photoPath.Some? && d.description.Some?
  }

  /**
   * `description` and `save_user_data`: records the description, then appends
   * one row built from the draft. A missing draft field raises before anything
   * is stored, which leaves the conversation where it was.
   */
  function DescriptionStep(users: Users, d: Draft, id: UserId, t: string): (r: Reply)
    ensures r.draft == d.(description := Some(t))
    ensures r.next.Some? <==> Ready(r.draft)
    ensures r.next.None? ==> r.users == users && r.effects == []
    ensures r.next.Some? ==>
      && r.next.value == Matching
      && |r.users| == |users| + 1 && r.users[..|users|] == users
      && var row := r.users[|users|];
      && row.userId == id && Some(row.gender) == d.gender && Some(row.age) == d.age
      && Some(row.hobby) == d.hobby && Some(row.location) == d.location
      && Some(row.photoPath) == d.photoPath && row.description == t
  {
    var d' := d.(description := Some(t));
    if !Ready(d') then Reply(None, d', users, [])
    else
      var row := UserRow(id, d'.gender.value, d'.age.value, d'.hobby.value, d'.location.value, d'.photoPath.value, t);
      assert (users + [row])[..|users|] == users;
      Reply(Some(Matching), d', users + [row], [ProfileSaved, AskStartMatching])
  }

  lemma {:induction false} RowCountAppend(users: Users, row: UserRow, id: UserId)
    ensures RowCount(users + [row], id) == RowCount(users, id) + (if row.userId == id then 1 else 0)
  {
    assert (users + [row])[..|users|] == users;
  }

  /** Nothing stops a second registration: each one adds another row for the user. */
  lemma RegisteringAgainAddsRow(users: Users, d: Draft, id: UserId, t: string)
    requires Ready(d.(description := Some(t)))
    ensures RowCount(DescriptionStep(users, d, id, t).users, id) == RowCount(users, id) + 1
  {
    var r := DescriptionStep(users, d, id, t);
    assert r.users == r.users[..|users|] + [r.users[|users|]];
    RowCountAppend(users, r.users[|users|], id);
  }

  /** `choose_matching`: only "Suka" or "Tidak Suka" is an answer; the state stays MATCHING. */
  function ChooseMatching(users: Users, d: Draft, t: string): (r: Reply)
    ensures r.next == Some(Matching) && r.users == users && r.draft == d
    ensures InvalidChoice in r.effects <==> t != "Suka" && t != "Tidak Suka"
    ensures Liked in r.effects <==> t == "Suka"
  {
    if t != "Suka" && t != "Tidak Suka" then Reply(Some(Matching), d, users, [InvalidChoice])
    else if t == "Suka" then Reply(Some(Matching), d, users, [Liked, AskAgain])
    else Reply(Some(Matching), d, users, [Passed, AskAgain])
  }

  /** What a `restricted` handler yields: a rejection, or what the wrapped handler returned. */
  datatype Guarded<R> = Rejected(effects: seq<Effect>) | Ran(result: R)

  /** `restricted`: runs the wrapped handler only for a registered user. */
  function Restricted<R>(users: Users, id: UserId, handler: () -> R): (g: Guarded<R>)
    ensures g.Ran? <==> Registered(users, id)
    ensures g.Ran? ==> g.result == handler()
    ensures g.Rejected? ==> g.effects == [NotRegistered]
  {
    if Registered(users, id) then Ran(handler()) else Rejected([NotRegistered])
  }

  /** `edit_profile`, the one restricted handler: asks for the new description. */
  function EditProfile(users: Users, d: Draft, id: UserId): (g: Guarded<Reply>)
    ensures g.Rejected? <==> !Registered(users, id)
    ensures g.Rejected? ==> g.effects == [NotRegistered]
    ensures g.Ran? ==> g.result.next == Some(EditProfileDescription) && g.result.users == users
    ensures g.Ran? ==> g.result.effects == [AskNewDescription] && g.result.draft == d
  {
    Restricted(users, id, () => Reply(Some(EditProfileDescription), d, users, [AskNewDescription]))
  }

  /** `UPDATE users SET description=? WHERE user_id=?` over every matching row. */
  function WithDescription(users: Users, id: UserId, t: string): (r: Users)
    ensures |r| == |users|
    ensures forall i | 0 <= i < |users| ::
      r[i] == if users[i].userId == id then users[i].(description := t) else users[i]
    decreases |users|
  {
    if |users| == 0 then []
    else
      var last := users[|users| - 1];
      WithDescription(users[..|users| - 1], id, t) + [if last.userId == id then last.(description := t) else last]
  }

  /**
   * `save_profile_description`: records the text in the draft and as the
   * description of every row of the user; no other column and no other
   * user's row changes, and the conversation stays where it is.
   */
  function SaveProfileDescription(users: Users, d: Draft, id: UserId, t: string): (r: Reply)
    ensures r.next.None? && r.draft == d.(description := Some(t)) && |r.users| == |users|
    ensures forall i | 0 <= i < |users| ::
      && r.users[i].userId == users[i].userId && r.users[i].gender == users[i].gender
      && r.users[i].age == users[i].age && r.users[i].hobby == users[i].hobby
      && r.users[i].location == users[i].location && r.users[i].photoPath == users[i].photoPath
      && r.users[i].description == (if users[i].userId == id then t else users[i].description)
  {
    Reply(None, d.(description := Some(t)), WithDescription(users, id, t), [DescriptionUpdated])
  }

  /** `cancel`: ends the conversation; unlike the 2025 bot it keeps the draft. */
  function Cancel(users: Users, d: Draft): (r: Reply)
    ensures r.next == Some(End) && r.users == users && r.draft == d
  {
    Reply(Some(End), d, users, [Cancelled])
  }

  datatype Session = Session(state: State, draft: Draft)

  const Initial := Session(End, EmptyDraft)

  /** The handler each state runs on each kind of event. */
  function Handle(users: Users, s: Session, id: UserId, ev: Event): (r: Reply)
    ensures KeepsRows(users, id, r.users)
    ensures s.state != EditProfileDescription ==> r.users[..|users|] == users
    ensures |r.users| > |users| ==>
      s.state == Description && ev.TextMessage? && r.next == Some(Matching) && |r.users| == |users| + 1
    ensures s.state == EditProfileDescription && ev.TextMessage? ==> r.next.None? && |r.users| == |users|
    ensures s.state != Description && s.state != EditProfileDescription ==> r.users == users
    ensures ev.Command? && ev.name == "start" && s.state != End ==> r.next.None? && r.draft == s.draft
  {
    var d := s.draft;
    match ev
    case Command(name) =>
      if name == "start" && s.state == End then Start(users, d, id)
      else if name == "cancel" && s.state != End then Cancel(users, d)
      else Reply(None, d, users, [])
    case TextMessage(t) =>
      (match s.state
       case Gender => GenderStep(users, d, t)
       case Age => AgeStep(users, d, t)
       case Hobby => HobbyStep(users, d, t)
       case Description => DescriptionStep(users, d, id, t)
       case Matching => ChooseMatching(users, d, t)
       case EditProfileDescription => SaveProfileDescription(users, d, id, t)
       case _ => Reply(None, d, users, []))
    case SharedLocation(p) =>
      if s.state == Location then LocationStep(users, d, Some(p)) else Reply(None, d, users, [])
    case SharedPhoto =>
      if s.state == Photo then PhotoStep(users, d, id) else Reply(None, d, users, [])
  }

  /** One event: the handler's state, or the current one when it returns none. */
  function Step(users: Users, s: Session, id: UserId, ev: Event): (r: (Session, Users))
    ensures KeepsRows(users, id, r.1)
    ensures s.state != EditProfileDescription ==> r.1[..|users|] == users
    ensures s.state == EditProfileDescription ==> |r.1| == |users|
    ensures |r.1| > |users| ==> s.state == Description && r.0.state == Matching && |r.1| == |users| + 1
    ensures s.state == Matching ==> r.1 == users && (ev != Command("cancel") ==> r.0.state == Matching)
    ensures ev.Command? && ev.name == "start" && s.state != End ==> r.0 == s
  {
    var reply := Handle(users, s, id, ev);
    (Session(reply.next.GetOr(s.state), reply.draft), reply.users)
  }

  /** Feeds a sequence of events from one user to the draft conversation. */
  function Run(users: Users, s: Session, id: UserId, events: seq<Event>): (r: (Session, Users))
    decreases |events|
  {
    if |events| == 0 then (s, users)
    else
      var (s', users') := Step(users, s, id, events[0]);
      Run(users', s', id, events[1..])
  }

  /**
   * However many events arrive, every stored row stays in place: another
   * user's row exactly, the user's own rows except their description.
   */
  lemma {:induction false} RunKeepsRows(users: Users, s: Session, id: UserId, events: seq<Event>)
    ensures KeepsRows(users, id, Run(users, s, id, events).1)
    decreases |events|
  {
    if |events| > 0 {
      var (s', users') := Step(users, s, id, events[0]);
      RunKeepsRows(users', s', id, events[1..]);
      var after := Run(users', s', id, events[1..]).1;
      forall i | 0 <= i < |users|
        ensures after[i] == users[i].(description := after[i].description)
      {
        assert users'[i] == users[i].(description := users'[i].description);
      }
    }
  }

  /**
   * Once in MATCHING, the draft conversation stays there and stores nothing
   * until `/cancel` arrives: the swipe answers are never recorded.
   */
  lemma {:induction false} RunStaysMatching(users: Users, s: Session, id: UserId, events: seq<Event>)
    requires s.state == Matching && Command("cancel") !in events
    ensures Run(users, s, id, events).0.state == Matching && Run(users, s, id, events).1 == users
    decreases |events|
  {
    if |events| > 0 {
      var (s', users') := Step(users, s, id, events[0]);
      assert events[0] in events;
      assert forall e | e in events[1..] :: e in events;
      RunStaysMatching(users', s', id, events[1..]);
    }
  }

  /** The age question accepts every positive integer and nothing else. */
  lemma AgeAcceptsPositive(users: Users, d: Draft, n: int)
    ensures AgeStep(users, d, ShowInt(n)).next == Some(Hobby) <==> n > 0
    ensures n > 0 ==> AgeStep(users, d, ShowInt(n)).draft.age == Some(n)
  {
    ParseShowInt(n);
  }
}

=== FILE: engine.dfy ===
/**
 * The conversation engine of the 2025 bot: one function per handler, each
 * taking the store, the user's session and one inbound event and giving the
 * next session, the next store and the messages the user is sent (as
 * abstract effects), and `Step`, which routes an event to the handler the
 * current state accepts it with.
 *
 * Routing follows the conversation framework the bot runs in: an event the
 * current state has no filter for is ignored (nothing changes); a handler
 * that raises leaves the conversation in the state it was in; the entry
 * command `/start` is only heard while no conversation is active, and the
 * `/cancel` fallback only while one is.
 */
module Engine {
  import opened Wrappers
  import opened Text
  import opened Tables
  import opened Candidates

  /** The conversation states; `End` is also the state before the first `/start`. */
  datatype State = Gender | Age | Hobby | Location | Photo | Description | Menu | Matching | EditProfile | End

  /** The reply-keyboard buttons of the main menu, resolved from their labels. */
  datatype MenuChoice = FindPartner | ViewProfile | EditChoice | Unrecognised

  datatype Event =
    | Command(name: string)
    | TextMessage(text: string)
    | SharedLocation(latitude: real, longitude: real)
    | SharedPhoto(fileIds: seq<string>)  // every size Telegram offers, largest last
    | Callback(token: string)
    | MenuPick(choice: MenuChoice)

  /** The per-user `user_data`: registration fields and the candidate on screen. */
  datatype Draft = Draft(
    gender: Option<string>,
    age: Option<int>,
    hobby: Option<string>,
    latitude: Option<real>,
    longitude: Option<real>,
    photoId: Option<string>,
    description: Option<string>,
    potentialMatch: Option<UserId>)

  const EmptyDraft := Draft(None, None, None, None, None, None, None, None)

  /**
   * A user's session. The source reuses the DESCRIPTION and HOBBY states for
   * both registering and editing; `editing` records which of the two
   * conversations the state belongs to.
   */
  datatype Session = Session(state: State, editing: bool, draft: Draft)

  const Initial := Session(End, false, EmptyDraft)

  /** The fields a registering session has collected on reaching each state. */
  predicate Collected(s: Session) {
    var d := s.draft;
    && (s.state == Gender ==> !s.editing)
    && (s.state == Age ==> !s.editing && d.gender.Some?)
    && (s.state == Hobby && !s.editing ==> d.gender.Some? && d.age.Some?)
    && (s.state == Location ==> !s.editing && d.gender.Some? && d.age.Some? && d.hobby.Some?)
    && (s.state == Photo ==>
          !s.editing && d.gender.Some? && d.age.Some? && d.hobby.Some?
          && d.latitude.Some? && d.longitude.Some?)
    && (s.state == Description && !s.editing ==>
          d.gender.Some? && d.age.Some? && d.hobby.Some?
          && d.latitude.Some? && d.longitude.Some? && d.photoId.Some?)
  }

  datatype Effect =
    | Welcome | AskGender | AskAge | InvalidAge | AskHobby | AskLocation | AskPhoto | AskDescription
    | Registered | RegistrationFailed
    | ShowProfile(profile: Profile) | ProfileMissing
    | ShowCandidate(candidate: UserId) | NoCandidates
    | AlreadySwiped | MatchNotice(recipient: UserId)
    | AskWhatToEdit | AskNewDescription | AskNewHobby | EditCancelled
    | DescriptionUpdated | HobbyUpdated | InvalidChoice | Cancelled

  datatype Reply = Reply(session: Session, store: Store, effects: seq<Effect>)

  /** The row `description` inserts: the draft's fields with the new description. */
  function RowOf(d: Draft): Profile {
    Profile(d.gender, d.age, d.hobby, d.latitude, d.longitude, d.photoId, d.description)
  }

  /** Whether `p` holds exactly the draft's registration fields and description `text`. */
  predicate RowFromDraft(p: Profile, d: Draft, text: string) {
    && p.gender == d.gender && p.age == d.age && p.hobby == d.hobby
    && p.latitude == d.latitude && p.longitude == d.longitude
    && p.photoId == d.photoId && p.description == Some(text)
  }

  /** The effects that announce a mutual like. */
  predicate Announces(effects: seq<Effect>) {
    exists i | 0 <= i < |effects| :: effects[i].MatchNotice?
  }

  // ---------------------------------------------------------------- registration

  /** `start`: the returning user goes to the menu, a new one to the gender question. */
  function Start(store: Store, s: Session, me: UserId): (r: Reply)
    ensures r.store == store && r.session.draft == s.draft && !r.session.editing
    ensures r.session.state == Menu <==> me in store.users
    ensures r.session.state == Gender <==> me !in store.users
  {
    if me in store.users then Reply(Session(Menu, false, s.draft), store, [Welcome])
    else Reply(Session(Gender, false, s.draft), store, [AskGender])
  }

  /** The filter `^(Pria|Wanita)$` of the GENDER state. */
  predicate IsGenderToken(t: string) {
    t == "Pria" || t == "Wanita"
  }

  /** GENDER state: only the two keyboard answers reach `gender`, which records them. */
  function GenderStep(store: Store, s: Session, t: string): (r: Reply)
    ensures r.store == store
    ensures r.session.state == Age <==> t == "Pria" || t == "Wanita"
    ensures r.session.state == Age ==> r.session.draft == s.draft.(gender := Some(t))
    ensures r.session.state != Age ==> r.session == s.(state := Gender) && r.effects == []
  {
    if IsGenderToken(t) then Reply(Session(Age, s.editing, s.draft.(gender := Some(t))), store, [AskAge])
    else Reply(s.(state := Gender), store, [])
  }

  const MinAge := 18
  const MaxAge := 99

  /** `age`: the text must parse as an integer within [18, 99], or the question repeats. */
  function AgeStep(store: Store, s: Session, t: string): (r: Reply)
    ensures r.store == store
    ensures r.session.state == Hobby <==> ParseInt(t).Some? && MinAge <= ParseInt(t).value <= MaxAge
    ensures r.session.state == Hobby ==> r.session.draft == s.draft.(age := ParseInt(t))
    ensures r.session.state != Hobby ==> r.session == s.(state := Age) && r.effects == [InvalidAge]
  {
    match ParseInt(t)
    case Some(n) =>
      if MinAge <= n <= MaxAge then Reply(Session(Hobby, s.editing, s.draft.(age := Some(n))), store, [AskHobby])
      else Reply(s.(state := Age), store, [InvalidAge])
    case None => Reply(s.(state := Age), store, [InvalidAge])
  }

  /** `hobby`: any text is the hobby. */
  function HobbyStep(store: Store, s: Session, t: string): (r: Reply)
    ensures r.store == store && r.session.state == Location && r.session.editing == s.editing
    ensures r.session.draft == s.draft.(hobby := Some(t))
  {
    Reply(Session(Location, s.editing, s.draft.(hobby := Some(t))), store, [AskLocation])
  }

  /** `location`: records both coordinates. */
  function LocationStep(store: Store, s: Session, latitude: real, longitude: real): (r: Reply)
    ensures r.store == store && r.session.state == Photo && r.session.editing == s.editing
    ensures r.session.draft == s.draft.(latitude := Some(latitude), longitude := Some(longitude))
  {
    Reply(Session(Photo, s.editing, s.draft.(latitude := Some(latitude), longitude := Some(longitude))), store, [AskPhoto])
  }

  /** `photo`: keeps the file id of the largest size, the last one offered. */
  function PhotoStep(store: Store, s: Session, fileIds: seq<string>): (r: Reply)
    requires |fileIds| > 0
    ensures r.store == store && r.session.state == Description && r.session.editing == s.editing
    ensures r.session.draft.photoId.Some? && r.session.draft.photoId.value in fileIds
    ensures r.session.draft == s.draft.(photoId := Some(fileIds[|fileIds| - 1]))
  {
    Reply(Session(Description, s.editing, s.draft.(photoId := Some(fileIds[|fileIds| - 1]))), store, [AskDescription])
  }

  /**
   * `description`: inserts one `users` row built from the draft and goes to
   * the menu with the draft cleared; when the user already has a row the
   * insert is refused, nothing is stored and the conversation ends.
   */
  function DescriptionStep(store: Store, s: Session, me: UserId, t: string): (r: Reply)
    ensures r.store.swipes == store.swipes && r.session.editing == s.editing
    ensures me in store.users ==>
      && r.store == store && r.session.state == End
      && r.session.draft == s.draft.(description := Some(t))
      && r.effects == [RegistrationFailed]
    ensures me !in store.users ==>
      && r.store.users.Keys == store.users.Keys + {me}
      && RowFromDraft(r.store.users[me], s.draft, t)
      && (forall u | u in store.users :: r.store.users[u] == store.users[u])
      && r.session.state == Menu && r.session.draft == EmptyDraft
      && r.effects == [Registered]
  {
    var d := s.draft.(description := Some(t));
    match InsertUser(store.users, me, RowOf(d))
    case Success(users) => Reply(Session(Menu, s.editing, EmptyDraft), store.(users := users), [Registered])
    case Failure(_) => Reply(Session(End, s.editing, d), store, [RegistrationFailed])
  }

  // ---------------------------------------------------------------- menu

  /** `my_profile`: shows the user's own row, if any, and stays in the menu. */
  function MyProfile(store: Store, s: Session, me: UserId): (r: Reply)
    ensures r.store == store && r.session == s.(state := Menu) && |r.effects| == 1
    ensures r.effects[0] == ProfileMissing <==> me !in store.users
    ensures me in store.users ==> r.effects == [ShowProfile(store.users[me])]
  {
    if me in store.users then Reply(s.(state := Menu), store, [ShowProfile(store.users[me])])
    else Reply(s.(state := Menu), store, [ProfileMissing])
  }

  /** The candidate `find_match` selects for the given roll, if any is left. */
  function NextCandidate(store: Store, me: UserId, roll: nat): (c: Option<UserId>)
    ensures c.None? <==> Eligible(store, me) == {}
    ensures c.Some? ==> c.value in store.users && c.value != me && (me, c.value) !in store.swipes
  {
    var pool := Eligible(store, me);
    if pool == {} then None else Some(Pick(pool, roll))
  }

  /**
   * `find_match`: shows one profile that is not the user's and that the user
   * has not swiped, remembering it as `potential_match_id`; with none left it
   * returns to the menu.
   */
  function FindMatch(store: Store, s: Session, me: UserId, roll: nat): (r: Reply)
    ensures r.store == store && r.session.editing == s.editing
    ensures r.session.state == Menu || r.session.state == Matching
    ensures r.session.state == Menu <==> Eligible(store, me) == {}
    ensures r.session.state == Menu ==> r.session.draft == s.draft && r.effects == [NoCandidates]
    ensures r.session.state == Matching ==>
      && r.session.draft.potentialMatch.Some?
      && var c := r.session.draft.potentialMatch.value;
      && c in store.users && c != me && (me, c) !in store.swipes && c in Eligible(store, me)
      && r.session.draft == s.draft.(potentialMatch := Some(c))
      && r.effects == [ShowCandidate(c)]
  {
    match NextCandidate(store, me, roll)
    case None => Reply(Session(Menu, s.editing, s.draft), store, [NoCandidates])
    case Some(c) => Reply(Session(Matching, s.editing, s.draft.(potentialMatch := Some(c))), store, [ShowCandidate(c)])
  }

  /** `main_menu`: dispatches on the button pressed. */
  function MainMenu(store: Store, s: Session, me: UserId, choice: MenuChoice, roll: nat): (r: Reply)
    ensures r.store == store
    ensures choice == FindPartner ==> r == FindMatch(store, s, me, roll)
    ensures choice == ViewProfile ==> r == MyProfile(store, s, me)
    ensures choice == EditChoice ==> r.session == s.(state := EditProfile)
    ensures choice == Unrecognised ==> r.session == s.(state := Menu) && r.effects == [InvalidChoice]
  {
    match choice
    case FindPartner => FindMatch(store, s, me, roll)
    case ViewProfile => MyProfile(store, s, me)
    case EditChoice => Reply(s.(state := EditProfile), store, [AskWhatToEdit])
    case Unrecognised => Reply(s.(state := Menu), store, [InvalidChoice])
  }

  // ---------------------------------------------------------------- swiping

  /** A decoded swipe button: the action and the id of the profile swiped. */
  datatype SwipeDecision = SwipeDecision(action: string, target: UserId)

  /** The `callback_data` of the swipe buttons `find_match` attaches to a candidate. */
  function SwipeToken(action: string, target: UserId): string {
    "match_" + action + "_" + ShowInt(target)
  }

  /**
   * `action, match_id_str = query.data.split("_")[1:]` then `int(match_id_str)`:
   * the token must split into exactly three pieces, the last an integer.
   */
  function ParseSwipeToken(token: string): (r: Option<SwipeDecision>)
    ensures r.Some? ==> |Split(token, '_')| == 3 && r.value.action == Split(token, '_')[1]
    ensures r.Some? ==> ParseInt(Split(token, '_')[2]) == Some(r.value.target)
    ensures |Split(token, '_')| != 3 ==> r.None?
    ensures |Split(token, '_')| == 3 && ParseInt(Split(token, '_')[2]).Some? ==>
      r == Some(SwipeDecision(Split(token, '_')[1], ParseInt(Split(token, '_')[2]).value))
  {
    var parts := Split(token, '_');
    if |parts| != 3 then None
    else
      match ParseInt(parts[2])
      case None => None
      case Some(n) => Some(SwipeDecision(parts[1], n))
  }

  /** The two notices sent when a newly stored like is reciprocated. */
  function MatchNotices(swipes: Swipes, d: SwipeDecision, me: UserId): seq<Effect> {
    if d.action == "like" && Likes(swipes, d.target, me) then [MatchNotice(me), MatchNotice(d.target)] else []
  }

  /** Messages placed before the one message `find_match` sends. */
  lemma MessagesThenSearch(prefix: seq<Effect>, tail: seq<Effect>)
    requires |tail| == 1 && (tail[0].ShowCandidate? || tail[0] == NoCandidates)
    requires forall i | 0 <= i < |prefix| :: !prefix[i].ShowCandidate? && prefix[i] != NoCandidates
    ensures var e := prefix + tail;
      && e[|e| - 1] == tail[0]
      && (Announces(e) <==> Announces(prefix))
      && (forall i | 0 <= i < |e| && e[i].ShowCandidate? :: e[i] == tail[0])
      && (AlreadySwiped in e <==> AlreadySwiped in prefix)
  {
    var e := prefix + tail;
    assert forall i | 0 <= i < |e| - 1 :: e[i] == prefix[i];
    if Announces(prefix) {
      var i :| 0 <= i < |prefix| && prefix[i].MatchNotice?;
      assert e[i].MatchNotice?;
    }
  }

  /**
   * The swipe of `d.target` by `me` as the `swipes` table records it: added
   * with its action unless that pair is already stored; nothing else changes.
   */
  predicate RecordsSwipe(store: Store, me: UserId, d: SwipeDecision, after: Store) {
    && after.users == store.users
    && after.swipes.Keys == store.swipes.Keys + {(me, d.target)}
    && (forall k | k in store.swipes :: after.swipes[k] == store.swipes[k])
    && ((me, d.target) !in store.swipes ==> after.swipes[(me, d.target)] == d.action)
  }

  /**
   * The messages a swipe sends before the search's own: a refused repeat is
   * reported, and a newly stored like that is reciprocated (or the user's own
   * id, which likes itself once stored) is announced to the swiper and then
   * to the swiped user; otherwise nothing.
   */
  predicate SwipeMessages(swipes: Swipes, me: UserId, d: SwipeDecision, effects: seq<Effect>) {
    && (AlreadySwiped in effects <==> (me, d.target) in swipes)
    && (Announces(effects) <==>
          (me, d.target) !in swipes && d.action == "like" && (d.target == me || Likes(swipes, d.target, me)))
    && ((me, d.target) in swipes ==> |effects| == 2 && effects[0] == AlreadySwiped)
    && (Announces(effects) ==> |effects| == 3 && effects[..2] == [MatchNotice(me), MatchNotice(d.target)])
    && ((me, d.target) !in swipes && !Announces(effects) ==> |effects| == 1)
  }

  /**
   * How `find_match` leaves a reply whose store is `r.store`: the session
   * keeps everything but the remembered candidate, which is eligible, and
   * the last message shows that candidate or reports that none is left.
   */
  predicate EndsAsSearch(s: Session, me: UserId, r: Reply) {
    && r.session.editing == s.editing
    && r.session.draft == s.draft.(potentialMatch := r.session.draft.potentialMatch)
    && (r.session.state == Matching || r.session.state == Menu)
    && (r.session.state == Menu <==> Eligible(r.store, me) == {})
    && |r.effects| >= 1
    && (r.session.state == Menu ==> r.session.draft == s.draft && r.effects[|r.effects| - 1] == NoCandidates)
    && (r.session.state == Matching ==>
          && r.session.draft.potentialMatch.Some? && r.session.draft.potentialMatch.value in Eligible(r.store, me)
          && r.effects[|r.effects| - 1] == ShowCandidate(r.session.draft.potentialMatch.value))
    && (forall i | 0 <= i < |r.effects| && r.effects[i].ShowCandidate? :: r.effects[i].candidate in Eligible(r.store, me))
  }

  /** A repeated swipe: the primary key refuses it, and the search moves on. */
  function SwipeRefused(store: Store, s: Session, me: UserId, d: SwipeDecision, roll: nat): (r: Reply)
    requires (me, d.target) in store.swipes
    ensures r.store == store && EndsAsSearch(s, me, r) && SwipeMessages(store.swipes, me, d, r.effects)
  {
    var next := FindMatch(store, s, me, roll);
    MessagesThenSearch([AlreadySwiped], next.effects);
    next.(effects := [AlreadySwiped] + next.effects)
  }

  /** A new swipe: stored, a reciprocated like announced, and the search moves on. */
  function SwipeStored(store: Store, s: Session, me: UserId, d: SwipeDecision, roll: nat): (r: Reply)
    requires (me, d.target) !in store.swipes
    ensures r.store == store.(swipes := store.swipes[(me, d.target) := d.action])
    ensures EndsAsSearch(s, me, r) && SwipeMessages(store.swipes, me, d, r.effects)
  {
    var swipes := store.swipes[(me, d.target) := d.action];
    var next := FindMatch(store.(swipes := swipes), s, me, roll);
    var notices := MatchNotices(swipes, d, me);
    assert d.target != me ==> (Likes(swipes, d.target, me) <==> Likes(store.swipes, d.target, me));
    assert Announces(notices) <==> notices != [] by {
      if notices != [] {
        assert notices[0].MatchNotice?;
      }
    }
    MessagesThenSearch(notices, next.effects);
    next.(effects := notices + next.effects)
  }

  /**
   * `match_choice`: records the swipe, announces a mutual like to both users,
   * and ends as `find_match` does. A malformed token changes nothing; a
   * second swipe on the same profile is refused by the primary key and only
   * moves on to the next candidate.
   */
  function MatchChoice(store: Store, s: Session, me: UserId, token: string, roll: nat): (r: Reply)
    ensures ParseSwipeToken(token).None? ==> r == Reply(s, store, [])
    ensures ParseSwipeToken(token).Some? ==>
      var d := ParseSwipeToken(token).value;
      && RecordsSwipe(store, me, d, r.store)
      && EndsAsSearch(s, me, r)
      && SwipeMessages(store.swipes, me, d, r.effects)
  {
    match ParseSwipeToken(token)
    case None => Reply(s, store, [])
    case Some(d) =>
      if (me, d.target) in store.swipes then SwipeRefused(store, s, me, d, roll)
      else SwipeStored(store, s, me, d, roll)
  }

  /**
   * `match_choice` exactly as written: it re-runs `find_match` with the
   * callback-query update, whose `message` is `None`. `find_match` still
   * selects and remembers the next candidate, then fails on
   * `update.message.reply_photo` (or `reply_text` when none is left); the
   * failure leaves the conversation in MATCHING and the candidate unseen.
   */
  function MatchChoiceAsWritten(store: Store, s: Session, me: UserId, token: string, roll: nat): (r: Reply)
    ensures r.session.state == s.state
    ensures r.store == MatchChoice(store, s, me, token, roll).store
    ensures forall i | 0 <= i < |r.effects| :: !r.effects[i].ShowCandidate? && !r.effects[i].NoCandidates?
  {
    match ParseSwipeToken(token)
    case None => Reply(s, store, [])
    case Some(d) =>
      var stored :=
        match InsertSwipe(store.swipes, me, d.target, d.action)
        case Failure(_) => store
        case Success(swipes) => store.(swipes := swipes);
      var shown :=
        match InsertSwipe(store.swipes, me, d.target, d.action)
        case Failure(_) => [AlreadySwiped]
        case Success(swipes) => MatchNotices(swipes, d, me);
      var draft :=
        match NextCandidate(stored, me, roll)
        case None => s.draft
        case Some(c) => s.draft.(potentialMatch := Some(c));
      Reply(s.(draft := draft), stored, shown)
  }

  // ---------------------------------------------------------------- editing

  /** The `callback_data` of the edit-menu buttons. */
  const EditDescriptionToken := "edit_description"
  const EditHobbyToken := "edit_hobby"
  const EditCancelToken := "edit_cancel"

  /**
   * `edit_profile_choice`: the second `_`-separated piece of the token picks
   * the field to edit, or returns to the menu; anything else stays in the
   * edit menu. A token without `_` fails on the index and changes nothing.
   */
  function EditProfileChoice(store: Store, s: Session, token: string): (r: Reply)
    ensures r.store == store && r.session.draft == s.draft
    ensures |Split(token, '_')| < 2 ==> r == Reply(s, store, [])
    ensures |Split(token, '_')| >= 2 ==>
      var choice := Split(token, '_')[1];
      && (choice == "description" ==> r.session.state == Description && r.session.editing)
      && (choice == "hobby" ==> r.session.state == Hobby && r.session.editing)
      && (choice == "cancel" ==> r.session.state == Menu)
      && (choice != "description" && choice != "hobby" && choice != "cancel" ==>
            r.session == s.(state := EditProfile))
  {
    var parts := Split(token, '_');
    if |parts| < 2 then Reply(s, store, [])
    else if parts[1] == "description" then Reply(Session(Description, true, s.draft), store, [AskNewDescription])
    else if parts[1] == "hobby" then Reply(Session(Hobby, true, s.draft), store, [AskNewHobby])
    else if parts[1] == "cancel" then Reply(s.(state := Menu), store, [EditCancelled])
    else Reply(s.(state := EditProfile), store, [])
  }

  /** `save_new_description`: overwrites the description of the user's row, if any. */
  function SaveNewDescription(store: Store, s: Session, me: UserId, t: string): (r: Reply)
    ensures r.session == s.(state := Menu) && r.store.swipes == store.swipes
    ensures r.store.users.Keys == store.users.Keys
    ensures me in store.users ==> r.store.users[me] == store.users[me].(description := Some(t))
    ensures forall u | u in store.users && u != me :: r.store.users[u] == store.users[u]
  {
    Reply(s.(state := Menu), store.(users := SetDescription(store.users, me, t)), [DescriptionUpdated])
  }

  /** `save_new_hobby`: overwrites the hobby of the user's row, if any. */
  function SaveNewHobby(store: Store, s: Session, me: UserId, t: string): (r: Reply)
    ensures r.session == s.(state := Menu) && r.store.swipes == store.swipes
    ensures r.store.users.Keys == store.users.Keys
    ensures me in store.users ==> r.store.users[me] == store.users[me].(hobby := Some(t))
    ensures forall u | u in store.users && u != me :: r.store.users[u] == store.users[u]
  {
    Reply(s.(state := Menu), store.(users := SetHobby(store.users, me, t)), [HobbyUpdated])
  }

  // ---------------------------------------------------------------- routing

  /** `cancel`: forgets the draft and ends the conversation; stored rows stay. */
  function Cancel(store: Store, s: Session): (r: Reply)
    ensures r.store == store && r.session.state == End && r.session.draft == EmptyDraft
  {
    Reply(Session(End, s.editing, EmptyDraft), store, [Cancelled])
  }

  /** An event no handler of the current state accepts. */
  function Ignored(store: Store, s: Session): Reply {
    Reply(s, store, [])
  }

  /**
   * What one event from user `me` may do, whatever the state: rows of other
   * users and stored swipes stay; the user's own row appears only when a
   * registration description is committed, built from the draft; new swipes
   * are the user's own, made in MATCHING; `/start` during a conversation is
   * ignored; registering sessions keep what they collected and commit only
   * complete rows; and a candidate shown or remembered is never the user.
   */
  predicate StepGuarantees(store: Store, s: Session, me: UserId, ev: Event, r: Reply) {
    && store.users.Keys <= r.store.users.Keys <= store.users.Keys + {me}
    && (forall u | u in store.users && u != me :: r.store.users[u] == store.users[u])
    && (me !in store.users && me in r.store.users ==>
          ev.TextMessage? && s.state == Description && !s.editing && r.session.state == Menu
          && RowFromDraft(r.store.users[me], s.draft, ev.text))
    && store.swipes.Keys <= r.store.swipes.Keys
    && (forall k | k in store.swipes :: r.store.swipes[k] == store.swipes[k])
    && (forall k | k in r.store.swipes && k !in store.swipes :: k.0 == me && s.state == Matching)
    && (ev.Command? && ev.name == "start" && s.state != End ==> r == Reply(s, store, []))
    && (Collected(s) ==> Collected(r.session))
    && (Collected(s) && AllComplete(store.users) ==> AllComplete(r.store.users))
    && (forall i | 0 <= i < |r.effects| && r.effects[i].ShowCandidate? ::
          var c := r.effects[i].candidate;
          c in r.store.users && c != me && (me, c) !in r.store.swipes)
    && (s.draft.potentialMatch != Some(me) ==> r.session.draft.potentialMatch != Some(me))
  }

  /** A text message, heard by the registration questions, the edit prompts and the menu. */
  function OnText(store: Store, s: Session, me: UserId, t: string, roll: nat): (r: Reply)
    ensures StepGuarantees(store, s, me, TextMessage(t), r)
  {
    match s.state
    case Gender => GenderStep(store, s, t)
    case Age => AgeStep(store, s, t)
    case Hobby => if s.editing then SaveNewHobby(store, s, me, t) else HobbyStep(store, s, t)
    case Description => if s.editing then SaveNewDescription(store, s, me, t) else DescriptionStep(store, s, me, t)
    case Menu => MainMenu(store, s, me, Unrecognised, roll)
    case _ => Ignored(store, s)
  }

  /** A button under a message: swipe buttons in MATCHING, edit buttons in the edit menu. */
  function OnCallback(store: Store, s: Session, me: UserId, token: string, roll: nat): (r: Reply)
    ensures StepGuarantees(store, s, me, Callback(token), r)
  {
    if s.state == Matching && HasPrefix(token, "match_") then MatchChoice(store, s, me, token, roll)
    else if s.state == EditProfile && HasPrefix(token, "edit_") then EditProfileChoice(store, s, token)
    else Ignored(store, s)
  }

  /**
   * One inbound event from user `me`; `roll` is the random draw the
   * candidate query would make, if the event leads to one.
   */
  function Step(store: Store, s: Session, me: UserId, ev: Event, roll: nat): (r: Reply)
    ensures StepGuarantees(store, s, me, ev, r)
  {
    match ev
    case Command(name) =>
      if name == "start" && s.state == End then Start(store, s, me)
      else if name == "cancel" && s.state != End then Cancel(store, s)
      else Ignored(store, s)
    case TextMessage(t) => OnText(store, s, me, t, roll)
    case SharedLocation(latitude, longitude) =>
      if s.state == Location then LocationStep(store, s, latitude, longitude) else Ignored(store, s)
    case SharedPhoto(fileIds) =>
      if s.state == Photo && |fileIds| > 0 then PhotoStep(store, s, fileIds) else Ignored(store, s)
    case Callback(token) => OnCallback(store, s, me, token, roll)
    case MenuPick(choice) =>
      if s.state == Menu then MainMenu(store, s, me, choice, roll) else Ignored(store, s)
  }
}

=== FILE: engine_props.dfy ===
/**
 * Properties of the 2025 engine that span several handlers or a sequence of
 * events: that a registering session keeps what it has collected, that only
 * complete rows are ever committed, that a user's events touch only that
 * user's row and swipes, the swipe-button round trip, mutual-like detection,
 * duplicate swipes, and the end-to-end registration scenario.
 */
module EngineProps {
  import opened Wrappers
  import opened Text
  import opened Tables
  import opened Candidates
  import opened Engine

  lemma InitialCollected()
    ensures Collected(Initial)
  {
  }

  /** Feeds a sequence of events from one user; `rolls[i]` is the random draw of event `i`. */
  function Run(store: Store, s: Session, me: UserId, events: seq<Event>, rolls: seq<nat>): (r: Reply)
    requires |rolls| == |events|
    decreases |events|
  {
    if |events| == 0 then Reply(s, store, [])
    else
      var first := Step(store, s, me, events[0], rolls[0]);
      var rest := Run(first.store, first.session, me, events[1..], rolls[1..]);
      Reply(rest.session, rest.store, first.effects + rest.effects)
  }

  /**
   * However many events arrive, a session keeps the collected-fields
   * invariant: on reaching each registration state, the draft holds every
   * field asked for before it.
   */
  lemma {:induction false} RunKeepsCollected(store: Store, s: Session, me: UserId, events: seq<Event>, rolls: seq<nat>)
    requires |rolls| == |events| && Collected(s)
    ensures Collected(Run(store, s, me, events, rolls).session)
    decreases |events|
  {
    if |events| > 0 {
      var first := Step(store, s, me, events[0], rolls[0]);
      RunKeepsCollected(first.store, first.session, me, events[1..], rolls[1..]);
    }
  }

  /**
   * Registration commits only complete rows: from a session that keeps the
   * invariant, no sequence of events ever stores a row with a null column.
   */
  lemma {:induction false} RunCommitsCompleteRows(store: Store, s: Session, me: UserId, events: seq<Event>, rolls: seq<nat>)
    requires |rolls| == |events| && Collected(s) && AllComplete(store.users)
    ensures AllComplete(Run(store, s, me, events, rolls).store.users)
    decreases |events|
  {
    if |events| > 0 {
      var first := Step(store, s, me, events[0], rolls[0]);
      RunCommitsCompleteRows(first.store, first.session, me, events[1..], rolls[1..]);
    }
  }

  /**
   * Any sequence of events from user `me` changes no other user's row, never
   * deletes a row, never alters or deletes a stored swipe, and adds swipes
   * only with `me` as the swiper.
   */
  lemma {:induction false} RunTouchesOnlyOwnData(store: Store, s: Session, me: UserId, events: seq<Event>, rolls: seq<nat>)
    requires |rolls| == |events|
    ensures var r := Run(store, s, me, events, rolls);
      && store.users.Keys <= r.store.users.Keys <= store.users.Keys + {me}
      && (forall u | u in store.users && u != me :: r.store.users[u] == store.users[u])
      && store.swipes.Keys <= r.store.swipes.Keys
      && (forall k | k in store.swipes :: r.store.swipes[k] == store.swipes[k])
      && (forall k | k in r.store.swipes && k !in store.swipes :: k.0 == me)
    decreases |events|
  {
    if |events| > 0 {
      var first := Step(store, s, me, events[0], rolls[0]);
      RunTouchesOnlyOwnData(first.store, first.session, me, events[1..], rolls[1..]);
    }
  }

  /** No sequence of events makes the remembered candidate the user. */
  lemma {:induction false} RunNeverRemembersSelf(store: Store, s: Session, me: UserId, events: seq<Event>, rolls: seq<nat>)
    requires |rolls| == |events| && s.draft.potentialMatch != Some(me)
    ensures Run(store, s, me, events, rolls).session.draft.potentialMatch != Some(me)
    decreases |events|
  {
    if |events| > 0 {
      var first := Step(store, s, me, events[0], rolls[0]);
      RunNeverRemembersSelf(first.store, first.session, me, events[1..], rolls[1..]);
    }
  }

  /** The payload each registration state waits for. */
  predicate Expects(state: State, ev: Event) {
    match state
    case Gender => ev.TextMessage?
    case Age => ev.TextMessage?
    case Hobby => ev.TextMessage?
    case Location => ev.SharedLocation?
    case Photo => ev.SharedPhoto?
    case Description => ev.TextMessage?
    case _ => true
  }

  /** A payload of the wrong kind is ignored during registration. */
  lemma WrongPayloadIgnored(store: Store, s: Session, me: UserId, ev: Event, roll: nat)
    requires !ev.Command? && !Expects(s.state, ev)
    ensures Step(store, s, me, ev, roll) == Reply(s, store, [])
  {
  }

  /** The age question accepts exactly the integers 18 to 99. */
  lemma AgeAcceptsExactlyTheRange(store: Store, s: Session, n: int)
    ensures var r := AgeStep(store, s, ShowInt(n));
      && (r.session.state == Hobby <==> 18 <= n <= 99)
      && (r.session.state == Hobby ==> r.session.draft.age == Some(n))
      && (r.session.state != Hobby ==> r.session == s.(state := Age))
  {
    ParseShowInt(n);
  }

  /** Text that is not a number keeps the session at the age question, unchanged. */
  lemma NonNumericAgeRejected(store: Store, s: Session)
    requires s.state == Age
    ensures Step(store, s, 0, TextMessage("abc"), 0).session == s
    ensures Step(store, s, 0, TextMessage(""), 0).session == s
  {
  }

  /** Every eligible profile is what some random draw would show. */
  lemma FindMatchCanOfferAny(store: Store, s: Session, me: UserId, c: UserId)
    requires c in Eligible(store, me)
    ensures exists roll: nat :: FindMatch(store, s, me, roll).session.draft.potentialMatch == Some(c)
  {
    PickReachesEvery(Eligible(store, me), c);
    var roll: nat :| Pick(Eligible(store, me), roll) == c;
    assert FindMatch(store, s, me, roll).session.draft.potentialMatch == Some(c);
  }

  /** Once the user has swiped every other profile, the search returns to the menu. */
  lemma FindMatchExhausted(store: Store, s: Session, me: UserId, roll: nat)
    requires forall v | v in store.users && v != me :: (me, v) in store.swipes
    ensures FindMatch(store, s, me, roll).session.state == Menu
    ensures FindMatch(store, s, me, roll).effects == [NoCandidates]
  {
  }

  /** The buttons `find_match` attaches decode to the action and candidate they carry. */
  lemma SwipeTokenRoundTrip(action: string, target: UserId)
    requires '_' !in action
    ensures ParseSwipeToken(SwipeToken(action, target)) == Some(SwipeDecision(action, target))
  {
    var parts := ["match", action, ShowInt(target)];
    ShowIntChars(target);
    assert parts[1..] == [action, ShowInt(target)];
    assert Join(parts[1..], '_') == action + "_" + ShowInt(target) by {
      assert parts[1..][1..] == [ShowInt(target)];
    }
    assert Join(parts, '_') == SwipeToken(action, target);
    SplitJoin(parts, '_');
    ParseShowInt(target);
  }

  /**
   * Of two users liking each other, whichever likes second triggers the
   * match announcement, and the first does not.
   */
  lemma MutualLikeAnnouncedOnce(store: Store, sa: Session, sb: Session, a: UserId, b: UserId, roll1: nat, roll2: nat)
    requires a != b
    requires (a, b) !in store.swipes && (b, a) !in store.swipes
    ensures var first := MatchChoice(store, sa, a, SwipeToken("like", b), roll1);
      var second := MatchChoice(first.store, sb, b, SwipeToken("like", a), roll2);
      && !Announces(first.effects)
      && Announces(second.effects)
      && MatchNotice(a) in second.effects && MatchNotice(b) in second.effects
  {
    SwipeTokenRoundTrip("like", b);
    SwipeTokenRoundTrip("like", a);
  }

  /**
   * Each party of a match is notified once: a swipe sends at most one notice
   * to the swiper and at most one to the swiped user, unless the two are the
   * same user, who then gets both.
   */
  lemma {:induction false} MatchNoticeOnce(store: Store, s: Session, me: UserId, token: string, roll: nat)
    ensures var r := MatchChoice(store, s, me, token, roll);
      ParseSwipeToken(token).Some? && ParseSwipeToken(token).value.target != me ==>
        multiset(r.effects)[MatchNotice(me)] <= 1
        && multiset(r.effects)[MatchNotice(ParseSwipeToken(token).value.target)] <= 1
  {
    var r := MatchChoice(store, s, me, token, roll);
    if ParseSwipeToken(token).Some? {
      var t := ParseSwipeToken(token).value.target;
      var last := r.effects[|r.effects| - 1..];
      assert !last[0].MatchNotice?;
      if Announces(r.effects) {
        assert r.effects == [MatchNotice(me), MatchNotice(t)] + last;
      } else {
        assert forall i | 0 <= i < |r.effects| :: !r.effects[i].MatchNotice?;
        assert MatchNotice(me) !in multiset(r.effects) && MatchNotice(t) !in multiset(r.effects);
      }
    }
  }

  /** A dislike is never announced, whatever the other user did. */
  lemma DislikeNeverAnnounced(store: Store, s: Session, me: UserId, target: UserId, roll: nat)
    ensures !Announces(MatchChoice(store, s, me, SwipeToken("dislike", target), roll).effects)
  {
    SwipeTokenRoundTrip("dislike", target);
  }

  /**
   * Swiping the same profile twice stores one row: the second attempt is
   * refused, leaves the swipes as the first left them and announces nothing.
   */
  lemma SecondSwipeRefused(store: Store, s: Session, me: UserId, target: UserId, a1: string, a2: string, roll1: nat, roll2: nat)
    requires '_' !in a1 && '_' !in a2
    ensures var first := MatchChoice(store, s, me, SwipeToken(a1, target), roll1);
      var second := MatchChoice(first.store, first.session, me, SwipeToken(a2, target), roll2);
      && (me, target) in first.store.swipes
      && second.store == first.store
      && AlreadySwiped in second.effects
      && !Announces(second.effects)
  {
    SwipeTokenRoundTrip(a1, target);
    SwipeTokenRoundTrip(a2, target);
  }

  /**
   * `match_choice` as written never leaves MATCHING: after a user swipes the
   * last profile left, the code as written stays in MATCHING (and shows
   * nothing), where the intended behaviour reports exhaustion and returns to
   * the menu.
   */
  lemma MatchChoiceAsWrittenStrands(p: Profile)
    ensures var store := Store(map[1 := p, 2 := p], map[]);
      var s := Session(Matching, false, EmptyDraft);
      var asWritten := MatchChoiceAsWritten(store, s, 1, SwipeToken("like", 2), 0);
      var intended := MatchChoice(store, s, 1, SwipeToken("like", 2), 0);
      && asWritten.session.state == Matching && NoCandidates !in asWritten.effects
      && intended.session.state == Menu && NoCandidates in intended.effects
  {
    var store := Store(map[1 := p, 2 := p], map[]);
    SwipeTokenRoundTrip("like", 2);
    assert InsertSwipe(store.swipes, 1, 2, "like") == Success(map[(1, 2) := "like"]);
    var after := Store(store.users, map[(1, 2) := "like"]);
    assert Eligible(after, 1) == {} by {
      forall v | v in after.users
        ensures v !in Eligible(after, 1)
      {
        assert v == 1 || v == 2;
      }
    }
  }

  /** An edit-menu token `edit_<x>` is routed on `x` alone. */
  lemma EditTokenRoutes(store: Store, s: Session, x: string)
    requires '_' !in x
    ensures var r := EditProfileChoice(store, s, "edit_" + x);
      && (x == "description" ==> r.session.state == Description && r.session.editing)
      && (x == "hobby" ==> r.session.state == Hobby && r.session.editing)
      && (x == "cancel" ==> r.session.state == Menu)
      && (x != "description" && x != "hobby" && x != "cancel" ==> r.session.state == EditProfile)
  {
    assert Join(["edit", x], '_') == "edit_" + x;
    SplitJoin(["edit", x], '_');
  }

  /** Saving the same description twice has the effect of saving it once. */
  lemma SaveNewDescriptionIdempotent(store: Store, s: Session, me: UserId, t: string)
    ensures var once := SaveNewDescription(store, s, me, t);
      SaveNewDescription(once.store, once.session, me, t) == once
  {
  }

  /** Saving the same hobby twice has the effect of saving it once. */
  lemma SaveNewHobbyIdempotent(store: Store, s: Session, me: UserId, t: string)
    ensures var once := SaveNewHobby(store, s, me, t);
      SaveNewHobby(once.store, once.session, me, t) == once
  {
  }

  /** The answers of the registration scenario, as the events that carry them. */
  const ScenarioEvents := [
    Command("start"), TextMessage("Wanita"), TextMessage("29"), TextMessage("Baca"),
    SharedLocation(1.0, 2.0), SharedPhoto(["p1"]), TextMessage("hai")]

  /** The scenario's random draws; registration never searches, so any would do. */
  const ScenarioRolls: seq<nat> := [0, 0, 0, 0, 0, 0, 0]

  lemma {:induction false} RunPrefix(store: Store, s: Session, me: UserId, events: seq<Event>, rolls: seq<nat>, k: nat)
    requires |rolls| == |events| && k <= |events|
    ensures var mid := Run(store, s, me, events[..k], rolls[..k]);
      var whole := Run(store, s, me, events, rolls);
      whole.session == Run(mid.store, mid.session, me, events[k..], rolls[k..]).session
      && whole.store == Run(mid.store, mid.session, me, events[k..], rolls[k..]).store
    decreases k
  {
    if k > 0 {
      var first := Step(store, s, me, events[0], rolls[0]);
      assert events[..k][1..] == events[1..][..k - 1];
      assert rolls[..k][1..] == rolls[1..][..k - 1];
      RunPrefix(first.store, first.session, me, events[1..], rolls[1..], k - 1);
      assert events[1..][k - 1..] == events[k..];
      assert rolls[1..][k - 1..] == rolls[k..];
    }
  }

  /** The scenario's draft after `k` registration answers. */
  function ScenarioDraft(k: nat): Draft {
    Draft(
      if k >= 1 then Some("Wanita") else None,
      if k >= 2 then Some(29) else None,
      if k >= 3 then Some("Baca") else None,
      if k >= 4 then Some(1.0) else None,
      if k >= 4 then Some(2.0) else None,
      if k >= 5 then Some("p1") else None,
      None, None)
  }

  const ScenarioStates := [Gender, Age, Hobby, Location, Photo, Description]

  lemma ScenarioStep(store: Store, k: nat)
    requires 42 !in store.users && k < 6
    ensures var s := if k == 0 then Initial else Session(ScenarioStates[k - 1], false, ScenarioDraft(k - 1));
      var r := Step(store, s, 42, ScenarioEvents[k], 0);
      r.store == store && r.session == Session(ScenarioStates[k], false, ScenarioDraft(k))
  {
    if k == 2 {
      ParseShowInt(29);
      assert ShowInt(29) == "29";
    }
  }

  lemma {:induction false} ScenarioCollectsAnswers(store: Store, k: nat)
    requires 42 !in store.users && 1 <= k <= 6
    ensures var r := Run(store, Initial, 42, ScenarioEvents[..k], ScenarioRolls[..k]);
      r.store == store && r.session == Session(ScenarioStates[k - 1], false, ScenarioDraft(k - 1))
    decreases k
  {
    if k == 1 {
      ScenarioStep(store, 0);
      var first := Step(store, Initial, 42, ScenarioEvents[0], 0);
      assert ScenarioEvents[..1][1..] == [];
      assert Run(store, Initial, 42, ScenarioEvents[..1], ScenarioRolls[..1]).session == first.session;
    } else {
      ScenarioCollectsAnswers(store, k - 1);
      RunPrefix(store, Initial, 42, ScenarioEvents[..k], ScenarioRolls[..k], k - 1);
      assert ScenarioEvents[..k][..k - 1] == ScenarioEvents[..k - 1];
      assert ScenarioRolls[..k][..k - 1] == ScenarioRolls[..k - 1];
      assert ScenarioEvents[..k][k - 1..] == [ScenarioEvents[k - 1]];
      assert ScenarioRolls[..k][k - 1..] == [0];
      ScenarioStep(store, k - 1);
      var mid := Session(ScenarioStates[k - 2], false, ScenarioDraft(k - 2));
      RunSingle(store, mid, 42, ScenarioEvents[k - 1]);
    }
  }

  lemma RunSingle(store: Store, s: Session, me: UserId, ev: Event)
    ensures Run(store, s, me, [ev], [0]).store == Step(store, s, me, ev, 0).store
    ensures Run(store, s, me, [ev], [0]).session == Step(store, s, me, ev, 0).session
  {
    assert [ev][1..] == [];
  }

  lemma ScenarioLastStep(store: Store)
    requires 42 !in store.users
    ensures var r := Step(store, Session(Description, false, ScenarioDraft(5)), 42, TextMessage("hai"), 0);
      && r.session.state == Menu
      && r.store.users.Keys == store.users.Keys + {42}
      && r.store.users[42] == Profile(Some("Wanita"), Some(29), Some("Baca"), Some(1.0), Some(2.0), Some("p1"), Some("hai"))
      && (forall u | u in store.users :: r.store.users[u] == store.users[u])
      && r.store.swipes == store.swipes
  {
  }

  /**
   * A new user who answers every registration question ends in the menu with
   * exactly one new row holding the answers, and no other row changed.
   */
  lemma RegistrationScenario(store: Store)
    requires 42 !in store.users
    ensures var r := Run(store, Initial, 42, ScenarioEvents, ScenarioRolls);
      && r.session.state == Menu
      && r.store.users.Keys == store.users.Keys + {42}
      && r.store.users[42] == Profile(Some("Wanita"), Some(29), Some("Baca"), Some(1.0), Some(2.0), Some("p1"), Some("hai"))
      && (forall u | u in store.users :: r.store.users[u] == store.users[u])
      && r.store.swipes == store.swipes
  {
    ScenarioCollectsAnswers(store, 6);
    RunPrefix(store, Initial, 42, ScenarioEvents, ScenarioRolls, 6);
    var mid := Session(Description, false, ScenarioDraft(5));
    assert ScenarioEvents[6..] == [TextMessage("hai")];
    assert ScenarioRolls[6..] == [0];
    ScenarioLastStep(store);
    RunSingle(store, mid, 42, TextMessage("hai"));
  }
}

=== FILE: tables.dfy ===
/**
 * The two tables of the 2025 bot, held in memory: `users`, keyed by
 * `user_id` (its primary key), and `swipes`, keyed by the ordered pair
 * `(swiper_id, swiped_id)` (its composite primary key). An INSERT that
 * would repeat a key fails with an integrity error and leaves the table as
 * it was; an UPDATE whose WHERE clause matches no row changes nothing.
 */
module Tables {
  import opened Wrappers

  type UserId = int

  /** One `users` row apart from its key. Every column is nullable. */
  datatype Profile = Profile(
    gender: Option<string>,
    age: Option<int>,
    hobby: Option<string>,
    latitude: Option<real>,
    longitude: Option<real>,
    photoId: Option<string>,
    description: Option<string>)
  {
    /** Whether every column of the row holds a value. */
    predicate Complete() {
      gender.Some? && age.Some? && hobby.Some? && latitude.Some? && longitude.Some?
      && photoId.Some? && description.Some?
    }
  }

  type Users = map<UserId, Profile>

  /** Whether no row of the table holds a null column. */
  predicate AllComplete(users: Users) {
    forall u | u in users :: users[u].Complete()
  }

  /** The `action` column of each swipe, by `(swiper_id, swiped_id)`. */
  type Swipes = map<(UserId, UserId), string>

  datatype Store = Store(users: Users, swipes: Swipes)

  datatype DbError = IntegrityError

  /** `INSERT INTO users`: refused when the key already has a row. */
  function InsertUser(users: Users, id: UserId, row: Profile): (r: Result<Users, DbError>)
    ensures r.Failure? <==> id in users
    ensures r.Success? ==> r.value.Keys == users.Keys + {id} && r.value[id] == row
    ensures r.Success? ==> forall u | u in users :: r.value[u] == users[u]
  {
    if id in users then Failure(IntegrityError) else Success(users[id := row])
  }

  /** `INSERT INTO swipes`: refused when the ordered pair already has a row. */
  function InsertSwipe(swipes: Swipes, swiper: UserId, swiped: UserId, action: string): (r: Result<Swipes, DbError>)
    ensures r.Failure? <==> (swiper, swiped) in swipes
    ensures r.Success? ==> r.value.Keys == swipes.Keys + {(swiper, swiped)}
    ensures r.Success? ==> r.value[(swiper, swiped)] == action
    ensures r.Success? ==> forall k | k in swipes :: r.value[k] == swipes[k]
  {
    if (swiper, swiped) in swipes then Failure(IntegrityError)
    else Success(swipes[(swiper, swiped) := action])
  }

  /** `UPDATE users SET description = ? WHERE user_id = ?`. */
  function SetDescription(users: Users, id: UserId, text: string): (r: Users)
    ensures r.Keys == users.Keys
    ensures id in users ==> r[id] == users[id].(description := Some(text))
    ensures forall u | u in users && u != id :: r[u] == users[u]
  {
    if id in users then users[id := users[id].(description := Some(text))] else users
  }

  /** `UPDATE users SET hobby = ? WHERE user_id = ?`. */
  function SetHobby(users: Users, id: UserId, text: string): (r: Users)
    ensures r.Keys == users.Keys
    ensures id in users ==> r[id] == users[id].(hobby := Some(text))
    ensures forall u | u in users && u != id :: r[u] == users[u]
  {
    if id in users then users[id := users[id].(hobby := Some(text))] else users
  }

  /** `SELECT swiped_id FROM swipes WHERE swiper_id = ?`. */
  function SwipedBy(swipes: Swipes, swiper: UserId): (r: set<UserId>)
    ensures forall v :: v in r <==> (swiper, v) in swipes
  {
    set k | k in swipes && k.0 == swiper :: k.1
  }

  /** Whether a `(swiper, swiped, 'like')` row exists. */
  predicate Likes(swipes: Swipes, swiper: UserId, swiped: UserId) {
    (swiper, swiped) in swipes && swipes[(swiper, swiped)] == "like"
  }
}

=== FILE: text.dfy ===
/**
 * The three pieces of Python string handling the handlers rely on:
 * `int(text)` restricted to an optional sign followed by ASCII decimal
 * digits, `str.split(sep)` with a one-character separator, and the decimal
 * rendering of an integer inside an f-string.
 */
module Text {
  import opened Wrappers

  predicate IsDigit(c: char) {
    '0' <= c <= '9'
  }

  predicate AllDigits(s: string) {
    forall i | 0 <= i < |s| :: IsDigit(s[i])
  }

  function DigitValue(c: char): nat
    requires IsDigit(c)
  {
    c as int - '0' as int
  }

  function DigitChar(d: nat): (c: char)
    requires d < 10
    ensures IsDigit(c) && DigitValue(c) == d
  {
    ('0' as int + d) as char
  }

  /** The value of a string of decimal digits, most significant first. */
  function DigitsValue(s: string): nat
    requires AllDigits(s)
    decreases |s|
  {
    if |s| == 0 then 0
    else 10 * DigitsValue(s[..|s| - 1]) + DigitValue(s[|s| - 1])
  }

  /** Python's `int(text)`: an optional `+` or `-`, then at least one digit. */
  function ParseInt(s: string): (r: Option<int>)
    ensures r.Some? <==>
      (|s| > 0 && AllDigits(s)) || (|s| > 1 && (s[0] == '-' || s[0] == '+') && AllDigits(s[1..]))
    ensures r.Some? && s[0] == '-' ==> r.value == -(DigitsValue(s[1..]) as int)
    ensures r.Some? && s[0] == '+' ==> r.value == DigitsValue(s[1..])
    ensures r.Some? && IsDigit(s[0]) ==> r.value == DigitsValue(s)
  {
    if |s| > 0 && (s[0] == '-' || s[0] == '+') then
      if |s| > 1 && AllDigits(s[1..]) then
        Some(if s[0] == '-' then 0 - DigitsValue(s[1..]) as int else DigitsValue(s[1..]))
      else None
    else if |s| > 0 && AllDigits(s) then Some(DigitsValue(s))
    else None
  }

  /** The decimal digits of a natural number, without leading zeros. */
  function ShowNat(n: nat): (s: string)
    ensures |s| > 0 && AllDigits(s)
    ensures n < 10 <==> |s| == 1
    decreases n
  {
    if n < 10 then [DigitChar(n)] else ShowNat(n / 10) + [DigitChar(n % 10)]
  }

  /** How an `int` is rendered by `f"{n}"`. */
  function ShowInt(n: int): string {
    if n < 0 then "-" + ShowNat(-n) else ShowNat(n)
  }

  lemma {:induction false} ShowNatValue(n: nat)
    ensures DigitsValue(ShowNat(n)) == n
    decreases n
  {
    if n >= 10 {
      ShowNatValue(n / 10);
      var s := ShowNat(n);
      assert s[..|s| - 1] == ShowNat(n / 10);
    }
  }

  /** Parsing the rendering of any integer gives that integer back. */
  lemma ParseShowInt(n: int)
    ensures ParseInt(ShowInt(n)) == Some(n)
  {
    var s := ShowInt(n);
    if n < 0 {
      assert s[0] == '-' && s[1..] == ShowNat(-n);
      ShowNatValue(-n);
      assert ParseInt(s).Some?;
    } else {
      assert s == ShowNat(n) && IsDigit(s[0]);
      ShowNatValue(n);
      assert ParseInt(s).Some?;
    }
  }

  /** A rendered integer consists of digits and at most a leading minus. */
  lemma ShowIntChars(n: int)
    ensures forall i | 0 <= i < |ShowInt(n)| :: IsDigit(ShowInt(n)[i]) || ShowInt(n)[i] == '-'
  {
  }

  /** Whether `s` starts with `prefix`, as an anchored `re.match` does. */
  predicate HasPrefix(s: string, prefix: string) {
    |prefix| <= |s| && s[..|prefix|] == prefix
  }

  /** The inverse of `str.split`: the parts glued back with the separator. */
  function Join(parts: seq<string>, sep: char): string
    requires |parts| >= 1
    decreases |parts|
  {
    if |parts| == 1 then parts[0] else parts[0] + [sep] + Join(parts[1..], sep)
  }

  /**
   * Python's `s.split(sep)` for a one-character separator: the maximal
   * separator-free pieces, empty pieces included, always at least one.
   */
  function Split(s: string, sep: char): (parts: seq<string>)
    ensures |parts| >= 1
    ensures forall i | 0 <= i < |parts| :: sep !in parts[i]
    ensures Join(parts, sep) == s
    decreases |s|
  {
    if |s| == 0 then [""]
    else
      var rest := Split(s[1..], sep);
      if s[0] == sep then [""] + rest
      else
        assert rest == [rest[0]] + rest[1..];
        [[s[0]] + rest[0]] + rest[1..]
  }

  lemma {:induction false} SplitNoSeparator(a: string, sep: char)
    requires sep !in a
    ensures Split(a, sep) == [a]
    decreases |a|
  {
    if |a| > 0 {
      SplitNoSeparator(a[1..], sep);
      assert [a[0]] + a[1..] == a;
    }
  }

  lemma {:induction false} SplitFirstPiece(a: string, sep: char, rest: string)
    requires sep !in a
    ensures Split(a + [sep] + rest, sep) == [a] + Split(rest, sep)
    decreases |a|
  {
    var s := a + [sep] + rest;
    if |a| == 0 {
      assert s[1..] == rest;
    } else {
      assert s[1..] == a[1..] + [sep] + rest;
      SplitFirstPiece(a[1..], sep, rest);
      assert [a[0]] + a[1..] == a;
    }
  }

  /** Splitting a joined list of separator-free pieces recovers the pieces. */
  lemma {:induction false} SplitJoin(parts: seq<string>, sep: char)
    requires |parts| >= 1
    requires forall i | 0 <= i < |parts| :: sep !in parts[i]
    ensures Split(Join(parts, sep), sep) == parts
    decreases |parts|
  {
    if |parts| == 1 {
      SplitNoSeparator(parts[0], sep);
    } else {
      SplitJoin(parts[1..], sep);
      SplitFirstPiece(parts[0], sep, Join(parts[1..], sep));
      assert [parts[0]] + parts[1..] == parts;
    }
  }
}

=== FILE: wrappers.dfy ===
/** Failure-compatible wrappers shared by the whole model. */
module Wrappers {

  /** An optional value: a nullable database column, a missing dict key. */
  datatype Option<+T> = None | Some(value: T) {

    /** The wrapped value, or `default` when there is none. */
    function GetOr(default: T): T {
      match this
      case Some(v) => v
      case None => default
    }
  }

  /** The outcome of a store operation that can be refused. */
  datatype Result<+R, +E> = Success(value: R) | Failure(error: E)
}
